=== FILE: README.md ===
# Nacos watchdog scripts — a Dafny model of the decision core

Two Python scripts keep a Windows Nacos server alive:

- `scripts/ServicesMonitoring.py` does three things:
  - it reads recent startup-failure events from the Nacos log;
  - it restarts Nacos when an "Out dated connection" event is directly followed, as the next extracted event, within five minutes by a "Connection check task end" event;
  - every cycle it probes the Nacos port and restarts the server when the port is down, then issues `net start` for each listed service whose `sc query` does not report `RUNNING`.
- `nacos-app-monitoring.py` does the log part only. It uses a different marker set and the 19-character timestamp. It applies no recency filter.

This project models the decision logic of both scripts as pure Dafny functions over immutable data and proves the properties the code promises. Operating-system effects become plain inputs: the log file's lines, the wall clock, socket and query outcomes, and exit codes. What the scripts do to the outside world becomes a trace of `Executor.Action` values.

Modules, in dependency order:

| module | file | what it holds |
|---|---|---|
| `Outcome` | outcome.dfy | `Option`, `Result`. |
| `Text` | text.dfy | Python's `s[:n]`, `p in s` and `str.strip()` blankness. |
| `Civil` | civil.dfy | The proleptic Gregorian calendar. A date-time maps to microseconds since 0001-01-01, so `datetime` subtraction and `timedelta` comparison become integer arithmetic. |
| `Stamp` | stamp.dfy | Fixed-width `strptime` for the two stamp layouts, with the renderer each one inverts. |
| `Events` | events.dfy | The `(kind, timestamp)` event, the log file, the marker strings, and the order-preserving collection of per-line results. |
| `NacosLogs` | nacos_logs.dfy | `check_nacos_logs`. |
| `AppLogs` | app_logs.dfy | `check_logs`. |
| `Correlation` | correlation.dfy | The adjacent-pair rule of both main loops. |
| `Probes` | probes.dfy | The decisions of `check_port_status` and `check_service_status`. |
| `Executor` | executor.dfy | The restart and start sequences of both scripts. |
| `Sweep` | sweep.dfy | `monitor_services`. |
| `Cycles` | cycles.dfy | One iteration of each script's main loop. |
| `Scenarios` | scenarios.dfy | Concrete inputs worked through. |

A timestamp is a count of microseconds since 0001-01-01 00:00:00. `Civil.MicrosOrder` proves this count is an order isomorphism onto calendar order. So "within 180 seconds" and "gap of at most five minutes" are exact integer comparisons.

The log-correlation rule can never fire. Both extractors emit only startup-failure kinds:
- `"ERROR Startup errors"`, `"ERROR Nacos failed to start"` and `"ERROR Application run failed"`;
- the rule waits for `"Out dated connection"` followed by `"Connection check task end"`.

`Cycles.NacosLogsNeverFire` and `Cycles.AppLogsNeverFire` prove this, and the cycle methods state its consequence. The generic rule is still modelled and proved on its own terms in `Correlation`, in case the event source changes.

Where the scripts' comments and the code disagree, the model follows the code:
- The docstring of `check_nacos_logs` speaks of the last 60 seconds. The code compares with `timedelta(seconds=180)` and has no lower bound, so future-dated lines are kept too.
- The scripts are meant to keep running whatever happens. In `check_logs`, however, a marker line whose first 19 characters are not a valid date-time raises a `ValueError`. That exception is caught neither there nor around the main loop, so the script stops. The model gives `check_logs` a `Result` that carries the index of the first such line.
- In `monitor_services`, a `net start` that raises anything but `CalledProcessError` ends the rest of the sweep. The model has this too.

## Model

| member | source | states |
|---|---|---|
| Text.Take | scripts/ServicesMonitoring.py:63 | `line[:n]` is the prefix of `line` of length `min(n, len(line))`. |
| Text.Contains | scripts/ServicesMonitoring.py:66-69 | `p in s` holds exactly when some window of `s` equals `p`. |
| Civil.NextDayCount | scripts/ServicesMonitoring.py:65 | Consecutive calendar days get consecutive day numbers, so date subtraction counts days. |
| Civil.DaysOrder | scripts/ServicesMonitoring.py:65 | Day numbers follow calendar order in both directions and tell dates apart. |
| Civil.TimeOfDayOrder | scripts/ServicesMonitoring.py:65 | Time since midnight lies within one day and follows clock order in both directions. |
| Civil.ToMicros | scripts/ServicesMonitoring.py:65 | A date-time's count lies inside its own day's block of microseconds, and its remainder modulo one second is the microsecond field. |
| Civil.MicrosOrder | scripts/ServicesMonitoring.py:174 | One instant's count is below another's exactly when it is earlier. Equal counts mean equal date-times. So `time2 - time1` is a difference of counts. |
| Stamp.ParsePlain | nacos-app-monitoring.py:37 | A parsed 19-character stamp is a valid date-time with a four-digit year and no fraction. |
| Stamp.ParseComma | scripts/ServicesMonitoring.py:64 | A parsed 23-character stamp is a valid date-time whose fraction is a whole number of milliseconds. |
| Stamp.NumberOfPad | scripts/ServicesMonitoring.py:64 | Reading back a zero-padded number that fits its width gives the number. |
| Stamp.PadOfNumber | scripts/ServicesMonitoring.py:64 | Re-padding the value of a digit run gives the run back. |
| Stamp.PlainParseOfFormat | nacos-app-monitoring.py:37 | Parsing the writer's 19-character spelling of a printable date-time gives it back. |
| Stamp.PlainFormatOfParse | nacos-app-monitoring.py:37 | Whatever the 19-character parser accepts is the writer's spelling of the date-time it returns. |
| Stamp.PlainRoundTrip | nacos-app-monitoring.py:37 | The 19-character parser returns `t` exactly when the input is the writer's spelling of a printable `t`. |
| Stamp.CommaRoundTrip | scripts/ServicesMonitoring.py:63-64 | The 23-character parser returns `t` exactly when the input is the writer's spelling of a millisecond-precise `t`. |
| Events.Keep | scripts/ServicesMonitoring.py:56-69 | `found_events` never holds more events than there are lines. Membership is stated by `Events.KeepMembers` and order by `Events.Origins`. |
| Events.KeepMembers | scripts/ServicesMonitoring.py:56-69 | An event is collected exactly when some line yields it. |
| Events.KeepAppend | scripts/ServicesMonitoring.py:60-69 | Collecting the events of a concatenation gives the events of each part, in order. |
| Events.KeepSkipsNone | scripts/ServicesMonitoring.py:60-71 | A line that yields nothing leaves the events of the other lines unchanged. |
| Events.Origins | scripts/ServicesMonitoring.py:59-69 | Each collected event comes from a line that yields it. Source lines strictly increase, so nothing is re-sorted. Every line that yields an event is represented. |
| NacosLogs.KindOf | scripts/ServicesMonitoring.py:66-69 | A line gets a kind exactly when it contains one of the two markers. The kind is a marker the line contains. "ERROR Startup errors" wins whenever it is present. |
| NacosLogs.LineEvent | scripts/ServicesMonitoring.py:61-71 | A line's event carries the kind the first matching marker gives and lies no more than 180 s before `now`. |
| NacosLogs.Extract | scripts/ServicesMonitoring.py:58-69 | At most one event per line; every event has a startup-failure kind and lies within the 180 s horizon. |
| NacosLogs.CheckNacosLogs | scripts/ServicesMonitoring.py:51-77 | An unreadable or missing file yields no events. Otherwise the events are those of `Extract`. |
| NacosLogs.Sources | scripts/ServicesMonitoring.py:59-69 | Events come in file order from strictly increasing lines. A line is represented exactly when it yields an event. |
| NacosLogs.StampedLine | scripts/ServicesMonitoring.py:61-69 | A line that starts with a spelled stamp yields an event exactly when the stamp is within 180 s of `now` (inclusive) and a marker occurs. The event carries the stamp's instant and the first marker's kind. |
| NacosLogs.EventLineIsStamped | scripts/ServicesMonitoring.py:62-69 | Every event's line starts with the writer's spelling of the event's instant. |
| NacosLogs.BlankLineHasNoStamp | scripts/ServicesMonitoring.py:61-64 | A blank line never parses, so the blank test only skips work. |
| NacosLogs.ExtractAppend | scripts/ServicesMonitoring.py:60-71 | Extraction distributes over splitting the file. |
| NacosLogs.UnparsableLineSkipped | scripts/ServicesMonitoring.py:62-71 | A line whose stamp fails to parse is dropped. The lines around it are still read. |
| NacosLogs.OneEventPerLine | scripts/ServicesMonitoring.py:66-69 | A single line yields at most one event. With both markers present it is an "ERROR Startup errors" event. |
| AppLogs.KindOf | nacos-app-monitoring.py:36-41 | A line gets a kind exactly when it contains one of the two markers. The kind is a marker the line contains. "ERROR Application run failed" wins whenever it is present. |
| AppLogs.LineStep | nacos-app-monitoring.py:36-41 | The marker test comes first. A line with no marker is skipped. A found event has the first matching marker's kind. |
| AppLogs.Run | nacos-app-monitoring.py:35-41 | The loop succeeds exactly when no step raises. On failure it reports the first raising step. On success it returns the found events, in order. |
| AppLogs.ReadLines | nacos-app-monitoring.py:33-41 | Reading succeeds exactly when no line raises. On failure it reports the first raising line. |
| AppLogs.ReadLinesEvents | nacos-app-monitoring.py:35-43 | A successful read returns the per-line events collected in order. |
| AppLogs.CheckLogs | nacos-app-monitoring.py:24-46 | An unreadable or missing file yields the empty list. A readable file gives exactly the outcome of reading its lines: the marker events, or the first raising line. Every event found has one of the two marker kinds. |
| AppLogs.Sources | nacos-app-monitoring.py:35-41 | Events come in file order from strictly increasing lines. With no recency filter, every marker line is represented. |
| AppLogs.StampedMarkerLine | nacos-app-monitoring.py:36-41 | A marker line that starts with a spelled stamp yields an event carrying the stamp's instant, however old. Only the first 19 characters are read. |
| AppLogs.ReadFailsOnUnstampedMarker | nacos-app-monitoring.py:36-46 | The read fails exactly when some marker line does not start with a spelled stamp. |
| AppLogs.UnmarkedLineIgnored | nacos-app-monitoring.py:35-41 | Removing a line without a marker changes neither whether the read succeeds nor what it returns. |
| Correlation.FirstFiring | scripts/ServicesMonitoring.py:169-179 | The scan returns a firing adjacent pair, and no earlier pair fires. It returns nothing exactly when no pair fires, so at most one restart is due. nacos-app-monitoring.py:81-91 runs the same scan. |
| Correlation.ShortListNeverFires | scripts/ServicesMonitoring.py:169 | Fewer than two events never fire. |
| Correlation.GapBoundInclusive | scripts/ServicesMonitoring.py:174-176 | A gap of exactly five minutes fires; one microsecond more does not. |
| Correlation.NoTriggerNoFiring | scripts/ServicesMonitoring.py:173 | Without an "Out dated connection" event nothing fires. |
| Probes.PortLive | scripts/ServicesMonitoring.py:109-120 | The port is live exactly when `connect_ex` reports 0. An exception counts as down. |
| Probes.ServiceLive | scripts/ServicesMonitoring.py:145-155 | A service is live exactly when its query output contains `RUNNING`. A raising query counts as down. |
| Executor.RestartServer | scripts/ServicesMonitoring.py:79-107 | The trace is a prefix of shutdown, 10 s pause, startup. It is the whole sequence exactly when the shutdown exits with 0. Startup is launched once then, else never. Shutdown is issued exactly when the directory change succeeds; a raising shutdown may never have started. A failed or raising shutdown ends the trace at once, with no pause. nacos-app-monitoring.py:48-77 runs the same sequence. |
| Executor.FailedShutdownAborts | scripts/ServicesMonitoring.py:88-90 | A non-zero shutdown exit code means startup is never launched. |
| Executor.CleanShutdownStarts | scripts/ServicesMonitoring.py:92-95 | After a clean shutdown, startup follows the shutdown and the settle pause. |
| Sweep.SweepServices | scripts/ServicesMonitoring.py:136-163 | The sweep issues only queries and `net start` commands, at most two per service, and begins by querying the first listed service. Which services are queried and started is stated by `Sweep.SweepStartsExactlyDown` and `Sweep.SweepStopsAtRaisingStart`. |
| Sweep.StartFollowsOwnQuery | scripts/ServicesMonitoring.py:136-140 | Every `net start` comes directly after the query of the same service, so no other service's query or start falls between a service's query and its start. |
| Sweep.SweepStartsExactlyDown | scripts/ServicesMonitoring.py:136-140 | When no `net start` raises, every listed service is queried, in list order. Exactly the down ones are started, in list order. |
| Sweep.SweepStopsAtRaisingStart | scripts/ServicesMonitoring.py:136-163 | A raising `net start` for service `k` ends the sweep; that start still counts as issued. Services after it are neither queried nor started. |
| Sweep.MonitorServices | scripts/ServicesMonitoring.py:122-143 | The first action probes localhost:8848. Right after it comes the restart trace, `RestartServer(server)`, when the port is down and nothing when it is live. No query or `net start` occurs before the restart ends. Shutdown is issued once exactly when the port is down and the directory is reachable. Startup is launched once exactly when the port is down and the shutdown is clean. Everything after the restart is the service sweep and nothing else, including the cut-short sweep of a raising `net start`. |
| Sweep.TraceShape | scripts/ServicesMonitoring.py:128-140 | In probe-then-restart-then-sweep order, the restart sits right after the probe and contributes every shutdown and startup of the trace. |
| Sweep.MonitorStartsExactlyDown | scripts/ServicesMonitoring.py:128-140 | Whatever the probe and any restart meet, every listed service is queried in order, and exactly the down ones are started. |
| Cycles.ExtractedKindsNeverFire | scripts/ServicesMonitoring.py:173 | Startup-failure kinds can never start a firing pair. |
| Cycles.NacosLogsNeverFire | scripts/ServicesMonitoring.py:66-69 | Nothing `check_nacos_logs` returns fires the rule. |
| Cycles.AppLogsNeverFire | nacos-app-monitoring.py:38-41 | Nothing a successful `check_logs` returns fires the rule. |
| Cycles.ServicesCycle | scripts/ServicesMonitoring.py:165-183 | One loop iteration issues exactly what `monitor_services` issues. The log path adds nothing. |
| Cycles.AppCycle | nacos-app-monitoring.py:79-92 | One loop iteration fails exactly when some line raises, and the error names such a line. Otherwise it issues no action. |
| Scenarios.KnownDayNumbers | scripts/ServicesMonitoring.py:65 | Day numbers agree with `date.toordinal() - 1` on three known dates. |
| Scenarios.ParsesPlainStamp | nacos-app-monitoring.py:37 | A concrete 19-character stamp reads into its fields. |
| Scenarios.ParsesCommaStamp | scripts/ServicesMonitoring.py:64 | A concrete 23-character stamp reads its fraction as milliseconds. |
| Scenarios.RejectsMissingLeapDay | nacos-app-monitoring.py:37 | February 29th of a common year is rejected. |
| Scenarios.PairGapScenarios | scripts/ServicesMonitoring.py:174-176 | A 3-minute gap fires; a 6-minute gap does not. |
| Scenarios.StoppedServiceIsStarted | scripts/ServicesMonitoring.py:136-140 | A STOPPED service is queried and started. A RUNNING one is only queried. |

## Left out

- Logging: the logger and handler setup and `JsonFormatter` carry no decision logic, so the model has no log output.
- Real effects: socket connects, `subprocess.run` and `Popen`, `os.chdir`, and the `sc` and `net` commands. Each is an input (`ConnectOutcome`, `QueryOutcome`, `RunOutcome`, `ServerHost.dirReachable`) or an `Action` in the trace.
- Scheduling: `time.sleep`, the endless `while True` loops and the `KeyboardInterrupt` handler. `Cycles` models one iteration, and a pause inside the restart is an `Action`.
- The clock: `datetime.now()` is the parameter `now`.
- Character decoding: `file.readlines()` is given as its list of lines. Newline translation and `UnicodeDecodeError` are not modelled.
- Stamp.ParsePlain: accepts only the fixed-width ASCII digit layout. Python's `strptime` also accepts several forms the model rejects:
  - one-digit months, days, hours, minutes and seconds;
  - a space-padded day;
  - any run of whitespace where the format has its single space;
  - non-ASCII decimal digits.
  On such a line the model predicts a rejection: `NacosLogs` skips the line and `AppLogs` predicts the `ValueError`, where Python would read the stamp.
- Stamp.ParseComma: accepts exactly three fraction digits after a full-width `YYYY-MM-DD HH:MM:SS`. Python's `%f` takes 1 to 6 digits, so a 23-character prefix holds three fraction digits only when every other field has its full width: `2024-01-01 10:00:0,1234` reads in Python as 0 s and 123400 µs, and the model rejects it.
- Executor.StartServer: carries no contract of its own. It is called only inside the restart, and `Executor.RestartServer` states its effect. The second `os.chdir` in the start functions is assumed to succeed whenever the first one did.
- Cycles.ServicesCycle: the outer `except Exception` that would end the script is not modelled, because no modelled step of `check_nacos_logs`, `restart_nacos_server` or `monitor_services` lets an exception out.
- scripts/setup.py: cx_Freeze packaging configuration, with no logic.

=== FILE: app_logs.dfy ===
/** `check_logs` of nacos-app-monitoring.py: every line naming a startup-failure
    marker yields one event stamped by its first 19 characters, in file order,
    with no recency filter. A marker line whose stamp does not parse raises a
    `ValueError` that the function does not catch, so the whole read fails. */
module AppLogs {
  import opened Outcome
  import opened Text
  import opened Civil
  import opened Stamp
  import opened Events

  /** The event kind the `if`/`elif` chain gives a line: the first marker wins. */
  function KindOf(line: string): (k: Option<string>)
    ensures k.Some? <==> Contains(line, ApplicationRunFailed) || Contains(line, NacosFailedToStart)
    ensures k.Some? ==> k.value == ApplicationRunFailed || k.value == NacosFailedToStart
    ensures k.Some? ==> Contains(line, k.value)
    ensures Contains(line, ApplicationRunFailed) ==> k == Some(ApplicationRunFailed)
  {
    if Contains(line, ApplicationRunFailed) then Some(ApplicationRunFailed)
    else if Contains(line, NacosFailedToStart) then Some(NacosFailedToStart)
    else None
  }

  /** What one pass of the loop body does with a line: nothing, append an event, or raise. */
  datatype Step = Skip | Found(event: Event) | Raise

  /** One pass of the loop body: the marker test comes first, and only marker lines are parsed. */
  function LineStep(line: string): (r: Step)
    ensures r.Found? ==> KindOf(line) == Some(r.event.kind)
    ensures r.Skip? <==> KindOf(line).None?
  {
    match KindOf(line)
    case None => Skip
    case Some(kind) =>
      match ParsePlain(Take(line, PlainWidth))
      case None => Raise
      case Some(t) => Found(Event(kind, ToMicros(t)))
  }

  /** A marker line whose leading stamp `strptime` rejects: the loop raises on it. */
  predicate Raises(line: string) {
    LineStep(line).Raise?
  }

  /** The event a step appends, if any. */
  function EventOf(s: Step): Option<Event> {
    if s.Found? then Some(s.event) else None
  }

  /** The loop over a file's steps: the events appended, or the position of the step that raises. */
  function Run(steps: seq<Step>): (r: Result<seq<Event>, nat>)
    ensures r.Success? <==> forall i :: 0 <= i < |steps| ==> !steps[i].Raise?
    ensures r.Failure? ==>
      r.error < |steps| && steps[r.error].Raise? && forall j :: 0 <= j < r.error ==> !steps[j].Raise?
    ensures r.Success? ==> r.value == Keep(seq(|steps|, i requires 0 <= i < |steps| => EventOf(steps[i])))
  {
    if |steps| == 0 then Success([])
    else
      var n := |steps| - 1;
      var pre := steps[..n];
      assert forall i :: 0 <= i < n ==> pre[i] == steps[i];
      match Run(pre)
      case Failure(i) => Failure(i)
      case Success(events) =>
        if steps[n].Raise? then Failure(n)
        else
          var xs := seq(|steps|, i requires 0 <= i < |steps| => EventOf(steps[i]));
          assert xs[..n] == seq(|pre|, i requires 0 <= i < |pre| => EventOf(pre[i]));
          Success(events + ToSeq(EventOf(steps[n])))
  }

  /** The loop over the lines `file.readlines()` returned: the events found, or the
      position of the line whose `ValueError` escapes. */
  function ReadLines(lines: seq<string>): (r: Result<seq<Event>, nat>)
    ensures r.Success? <==> forall i :: 0 <= i < |lines| ==> !Raises(lines[i])
    ensures r.Failure? ==>
      r.error < |lines| && Raises(lines[r.error]) && forall j :: 0 <= j < r.error ==> !Raises(lines[j])
  {
    var steps := seq(|lines|, i requires 0 <= i < |lines| => LineStep(lines[i]));
    assert forall i :: 0 <= i < |lines| ==> (steps[i].Raise? <==> Raises(lines[i]));
    Run(steps)
  }

  /** The event each line would yield if the loop did not raise. */
  function Classify(lines: seq<string>): (r: seq<Option<Event>>)
    ensures |r| == |lines|
    ensures forall i :: 0 <= i < |lines| ==> r[i] == EventOf(LineStep(lines[i]))
  {
    seq(|lines|, i requires 0 <= i < |lines| => EventOf(LineStep(lines[i])))
  }

  /** A successful read returns the events of all marker lines, in file order. */
  lemma ReadLinesEvents(lines: seq<string>)
    requires ReadLines(lines).Success?
    ensures ReadLines(lines).value == Keep(Classify(lines))
  {
    var steps := seq(|lines|, i requires 0 <= i < |lines| => LineStep(lines[i]));
    assert seq(|steps|, i requires 0 <= i < |steps| => EventOf(steps[i])) == Classify(lines);
  }

  /** The whole of `check_logs`: an unreadable or missing file yields no events. */
  function CheckLogs(file: LogFile): (r: Result<seq<Event>, nat>)
    ensures file.Unreadable? ==> r == Success([])
    ensures file.Readable? ==> r == ReadLines(file.lines)
    ensures r.Success? ==> forall k :: 0 <= k < |r.value| ==>
      r.value[k].kind == ApplicationRunFailed || r.value[k].kind == NacosFailedToStart
  {
    match file
    case Unreadable => Success([])
    case Readable(lines) =>
      var r := ReadLines(lines);
      assert r.Success? ==> forall k :: 0 <= k < |r.value| ==>
        r.value[k].kind == ApplicationRunFailed || r.value[k].kind == NacosFailedToStart
      by {
        if r.Success? {
          ReadLinesEvents(lines);
          var xs := Classify(lines);
          var idx := Origins(xs);
          forall k | 0 <= k < |r.value|
            ensures r.value[k].kind == ApplicationRunFailed || r.value[k].kind == NacosFailedToStart
          {
            assert xs[idx[k]] == Some(r.value[k]);
            assert LineStep(lines[idx[k]]).Found?;
          }
        }
      }
      r
  }

  /** The line each event of a successful read comes from: strictly increasing, so events
      keep file order, and hitting exactly the marker lines. */
  function Sources(lines: seq<string>): (idx: seq<nat>)
    requires ReadLines(lines).Success?
    ensures |idx| == |ReadLines(lines).value|
    ensures forall k :: 0 <= k < |idx| ==>
      idx[k] < |lines| && LineStep(lines[idx[k]]) == Found(ReadLines(lines).value[k])
    ensures forall k, j :: 0 <= k < j < |idx| ==> idx[k] < idx[j]
    ensures forall i :: 0 <= i < |lines| ==> (KindOf(lines[i]).Some? <==> i in idx)
  {
    ReadLinesEvents(lines);
    var xs := Classify(lines);
    var idx := Origins(xs);
    assert forall k :: 0 <= k < |idx| ==> xs[idx[k]] == Some(ReadLines(lines).value[k]);
    assert forall i :: 0 <= i < |lines| ==> !Raises(lines[i]);
    idx
  }

  /** A marker line starting with a stamp in the writer's layout yields an event carrying
      the instant the stamp spells, however old it is. */
  lemma StampedMarkerLine(t: DateTime, rest: string)
    requires PlainPrintable(t)
    requires KindOf(FormatPlain(t) + rest).Some?
    ensures var line := FormatPlain(t) + rest;
      LineStep(line) == Found(Event(KindOf(line).value, ToMicros(t)))
  {
    var line := FormatPlain(t) + rest;
    assert Take(line, PlainWidth) == FormatPlain(t);
    PlainRoundTrip(FormatPlain(t), t);
  }

  /** The read fails exactly when some marker line lacks a parsable stamp; lines without a
      marker are never parsed, whatever they hold. */
  lemma ReadFailsOnUnstampedMarker(lines: seq<string>)
    ensures ReadLines(lines).Failure? <==>
      exists i :: 0 <= i < |lines| && KindOf(lines[i]).Some?
                  && forall t :: PlainPrintable(t) ==> !(FormatPlain(t) <= lines[i])
  {
    forall i | 0 <= i < |lines|
      ensures Raises(lines[i]) <==> KindOf(lines[i]).Some?
                                    && forall t :: PlainPrintable(t) ==> !(FormatPlain(t) <= lines[i])
    {
      var p := Take(lines[i], PlainWidth);
      match ParsePlain(p)
      case Some(t) =>
        PlainRoundTrip(p, t);
        assert FormatPlain(t) <= lines[i];
      case None =>
        forall t | PlainPrintable(t) ensures !(FormatPlain(t) <= lines[i]) {
          PlainRoundTrip(p, t);
          assert p != FormatPlain(t);
        }
    }
  }

  lemma UnmarkedLineRaisesNothing(a: seq<string>, line: string, b: seq<string>)
    requires KindOf(line).None?
    ensures (forall i :: 0 <= i < |a + [line] + b| ==> !Raises((a + [line] + b)[i]))
        <==> (forall i :: 0 <= i < |a + b| ==> !Raises((a + b)[i]))
  {
    var whole := a + [line] + b;
    var short := a + b;
    assert !Raises(line);
    if forall i :: 0 <= i < |whole| ==> !Raises(whole[i]) {
      forall i | 0 <= i < |short| ensures !Raises(short[i]) {
        if i < |a| { assert short[i] == whole[i]; } else { assert short[i] == whole[i + 1]; }
      }
    }
    if forall i :: 0 <= i < |short| ==> !Raises(short[i]) {
      forall i | 0 <= i < |whole| ensures !Raises(whole[i]) {
        if i < |a| { assert whole[i] == short[i]; }
        else if i > |a| { assert whole[i] == short[i - 1]; }
      }
    }
  }

  lemma ClassifyAppend(a: seq<string>, b: seq<string>)
    ensures Classify(a + b) == Classify(a) + Classify(b)
  {
    assert forall i :: 0 <= i < |a| ==> (a + b)[i] == a[i];
    assert forall i :: |a| <= i < |a + b| ==> (a + b)[i] == b[i - |a|];
  }

  lemma UnmarkedLineClassified(a: seq<string>, line: string, b: seq<string>)
    requires KindOf(line).None?
    ensures Keep(Classify(a + [line] + b)) == Keep(Classify(a + b))
  {
    var ca, cb := Classify(a), Classify(b);
    assert Classify([line]) == [None];
    ClassifyAppend(a, [line]);
    ClassifyAppend(a + [line], b);
    ClassifyAppend(a, b);
    KeepSkipsNone(ca, cb);
  }

  /** A line without a marker can be dropped without changing whether the read succeeds or what it finds. */
  lemma UnmarkedLineIgnored(a: seq<string>, line: string, b: seq<string>)
    requires KindOf(line).None?
    ensures ReadLines(a + [line] + b).Success? <==> ReadLines(a + b).Success?
    ensures ReadLines(a + b).Success? ==> ReadLines(a + [line] + b) == ReadLines(a + b)
  {
    UnmarkedLineRaisesNothing(a, line, b);
    if ReadLines(a + b).Success? {
      ReadLinesEvents(a + b);
      ReadLinesEvents(a + [line] + b);
      UnmarkedLineClassified(a, line, b);
    }
  }
}

=== FILE: civil.dfy ===
/** Proleptic Gregorian calendar arithmetic, standing in for Python's naive
    `datetime`: a valid date-time is turned into a count of microseconds since
    0001-01-01 00:00:00, so that `t2 - t1` and `timedelta` comparisons become
    exact integer comparisons. */
module Civil {

  const MicrosPerSecond := 1_000_000
  const MicrosPerDay := 86_400 * MicrosPerSecond

  datatype Date = Date(year: int, month: int, day: int)

  datatype DateTime = DateTime(date: Date, hour: int, minute: int, second: int, micro: int)

  predicate IsLeapYear(y: int) {
    y % 4 == 0 && (y % 100 != 0 || y % 400 == 0)
  }

  function DaysInYear(y: int): int {
    if IsLeapYear(y) then 366 else 365
  }

  function DaysInMonth(y: int, m: int): int
    requires 1 <= m <= 12
  {
    if m == 2 then (if IsLeapYear(y) then 29 else 28)
    else if m == 4 || m == 6 || m == 9 || m == 11 then 30
    else 31
  }

  /** What `datetime`'s constructor accepts for the date part (MINYEAR is 1); the upper
      bound MAXYEAR = 9999 is imposed where stamps are parsed, by `Stamp.FourDigitYear`. */
  predicate ValidDate(d: Date) {
    1 <= d.year && 1 <= d.month <= 12 && 1 <= d.day <= DaysInMonth(d.year, d.month)
  }

  /** What `datetime`'s constructor accepts, apart from the year bound `Stamp.FourDigitYear`
      adds: seconds stop at 59 and microseconds below one second. */
  predicate Valid(t: DateTime) {
    && ValidDate(t.date)
    && 0 <= t.hour < 24 && 0 <= t.minute < 60 && 0 <= t.second < 60
    && 0 <= t.micro < MicrosPerSecond
  }

  /** Days in the years 1 .. y-1. */
  function DaysBeforeYear(y: int): int
    requires y >= 1
  {
    var k := y - 1;
    365 * k + k / 4 - k / 100 + k / 400
  }

  /** Days in the months 1 .. m-1 of year y. */
  function DaysBeforeMonth(y: int, m: int): int
    requires 1 <= m <= 12
  {
    var common :=
      if m == 1 then 0 else if m == 2 then 31 else if m == 3 then 59
      else if m == 4 then 90 else if m == 5 then 120 else if m == 6 then 151
      else if m == 7 then 181 else if m == 8 then 212 else if m == 9 then 243
      else if m == 10 then 273 else if m == 11 then 304 else 334;
    if m > 2 && IsLeapYear(y) then common + 1 else common
  }

  /** Days elapsed from 0001-01-01 to `d` (Python's `d.toordinal() - 1`). */
  function DaysFromCivil(d: Date): int
    requires ValidDate(d)
  {
    DaysBeforeYear(d.year) + DaysBeforeMonth(d.year, d.month) + d.day - 1
  }

  /** Microseconds elapsed since midnight of `t`'s own day. */
  function TimeOfDay(t: DateTime): int {
    ((t.hour * 60 + t.minute) * 60 + t.second) * MicrosPerSecond + t.micro
  }

  /** Microseconds elapsed from 0001-01-01 00:00:00 to `t`. */
  function ToMicros(t: DateTime): (r: int)
    requires Valid(t)
    ensures DaysFromCivil(t.date) * MicrosPerDay <= r < (DaysFromCivil(t.date) + 1) * MicrosPerDay
    ensures r % MicrosPerSecond == t.micro
  {
    TimeOfDayOrder(t, t);
    DaysFromCivil(t.date) * MicrosPerDay + TimeOfDay(t)
  }

  /** The calendar day after `d`. */
  function Next(d: Date): (n: Date)
    requires ValidDate(d)
    ensures ValidDate(n)
  {
    if d.day < DaysInMonth(d.year, d.month) then Date(d.year, d.month, d.day + 1)
    else if d.month < 12 then Date(d.year, d.month + 1, 1)
    else Date(d.year + 1, 1, 1)
  }

  /** Calendar order on dates: year, then month, then day. */
  predicate DateBefore(a: Date, b: Date) {
    a.year < b.year
    || (a.year == b.year && (a.month < b.month || (a.month == b.month && a.day < b.day)))
  }

  /** Chronological order on date-times, field by field. */
  predicate Before(a: DateTime, b: DateTime) {
    DateBefore(a.date, b.date)
    || (a.date == b.date
        && (a.hour < b.hour
            || (a.hour == b.hour
                && (a.minute < b.minute
                    || (a.minute == b.minute
                        && (a.second < b.second || (a.second == b.second && a.micro < b.micro)))))))
  }

  /** Stepping past a multiple of `c` raises the quotient by one, otherwise leaves it. */
  lemma QuotientStep(k: int, c: int)
    requires k >= 0 && (c == 4 || c == 100 || c == 400)
    ensures (k + 1) / c == k / c + (if (k + 1) % c == 0 then 1 else 0)
  {
  }

  lemma CenturyIsLeapCandidate(y: int)
    requires y % 100 == 0
    ensures y % 4 == 0
  {
    var q := y / 100;
    assert y == 4 * (25 * q);
  }

  lemma FourCenturiesAreCenturies(y: int)
    requires y % 400 == 0
    ensures y % 100 == 0
  {
    var q := y / 400;
    assert y == 100 * (4 * q);
  }

  /** A year contributes exactly its own length to the running day count. */
  lemma YearStep(y: int)
    requires y >= 1
    ensures DaysBeforeYear(y + 1) == DaysBeforeYear(y) + DaysInYear(y)
  {
    var k := y - 1;
    QuotientStep(k, 4);
    QuotientStep(k, 100);
    QuotientStep(k, 400);
    if y % 400 == 0 {
      FourCenturiesAreCenturies(y);
      CenturyIsLeapCandidate(y);
    } else if y % 100 == 0 {
      CenturyIsLeapCandidate(y);
    }
  }

  /** A month contributes exactly its own length; the twelve months fill the year. */
  lemma MonthStep(y: int, m: int)
    requires 1 <= m <= 12
    ensures m < 12 ==> DaysBeforeMonth(y, m + 1) == DaysBeforeMonth(y, m) + DaysInMonth(y, m)
    ensures m == 12 ==> DaysBeforeMonth(y, m) + DaysInMonth(y, m) == DaysInYear(y)
  {
  }

  lemma {:induction false} YearsIncrease(y1: int, y2: int)
    requires 1 <= y1 < y2
    ensures DaysBeforeYear(y1) + DaysInYear(y1) <= DaysBeforeYear(y2)
    decreases y2 - y1
  {
    YearStep(y1);
    if y1 + 1 < y2 {
      YearsIncrease(y1 + 1, y2);
    }
  }

  lemma {:induction false} MonthsIncrease(y: int, m1: int, m2: int)
    requires 1 <= m1 < m2 <= 12
    ensures DaysBeforeMonth(y, m1) + DaysInMonth(y, m1) <= DaysBeforeMonth(y, m2)
    decreases m2 - m1
  {
    MonthStep(y, m1);
    if m1 + 1 < m2 {
      MonthsIncrease(y, m1 + 1, m2);
    }
  }

  lemma DayWithinYear(d: Date)
    requires ValidDate(d)
    ensures DaysBeforeYear(d.year) <= DaysFromCivil(d) < DaysBeforeYear(d.year) + DaysInYear(d.year)
  {
    if d.month < 12 {
      MonthsIncrease(d.year, d.month, 12);
    }
    MonthStep(d.year, 12);
  }

  /** The day count of the next calendar day is one more: consecutive dates get consecutive numbers. */
  lemma NextDayCount(d: Date)
    requires ValidDate(d)
    ensures DaysFromCivil(Next(d)) == DaysFromCivil(d) + 1
  {
    MonthStep(d.year, d.month);
    if d.day == DaysInMonth(d.year, d.month) && d.month == 12 {
      YearStep(d.year);
    }
  }

  /** The day count follows calendar order, in both directions, and tells dates apart. */
  lemma DaysOrder(a: Date, b: Date)
    requires ValidDate(a) && ValidDate(b)
    ensures DaysFromCivil(a) < DaysFromCivil(b) <==> DateBefore(a, b)
    ensures DaysFromCivil(a) == DaysFromCivil(b) <==> a == b
  {
    if DateBefore(a, b) {
      DaysOrderOneWay(a, b);
    } else if DateBefore(b, a) {
      DaysOrderOneWay(b, a);
    }
  }

  lemma DaysOrderOneWay(a: Date, b: Date)
    requires ValidDate(a) && ValidDate(b)
    requires DateBefore(a, b)
    ensures DaysFromCivil(a) < DaysFromCivil(b)
  {
    if a.year < b.year {
      DayWithinYear(a);
      DayWithinYear(b);
      YearsIncrease(a.year, b.year);
    } else if a.month < b.month {
      MonthsIncrease(a.year, a.month, b.month);
    }
  }

  lemma {:induction false} ProductAtLeast(d: int, b: int)
    requires d >= 1 && b > 0
    ensures d * b >= b
    decreases d
  {
    if d > 1 {
      ProductAtLeast(d - 1, b);
      assert d * b == (d - 1) * b + b;
    }
  }

  /** Two numbers in positional notation with digit base `b` compare as their digit pairs do. */
  lemma PlaceValue(q1: int, r1: int, q2: int, r2: int, b: int)
    requires b > 0 && 0 <= r1 < b && 0 <= r2 < b
    ensures q1 * b + r1 < q2 * b + r2 <==> q1 < q2 || (q1 == q2 && r1 < r2)
    ensures q1 * b + r1 == q2 * b + r2 <==> q1 == q2 && r1 == r2
  {
    if q1 < q2 {
      var d := q2 - q1;
      ProductAtLeast(d, b);
      assert q2 * b == q1 * b + d * b;
    } else if q2 < q1 {
      var d := q1 - q2;
      ProductAtLeast(d, b);
      assert q1 * b == q2 * b + d * b;
    }
  }

  /** The time of day follows clock order, in both directions, and tells clock readings apart. */
  lemma TimeOfDayOrder(a: DateTime, b: DateTime)
    requires Valid(a) && Valid(b)
    ensures 0 <= TimeOfDay(a) < MicrosPerDay
    ensures TimeOfDay(a) < TimeOfDay(b) <==>
      (a.hour < b.hour
       || (a.hour == b.hour
           && (a.minute < b.minute
               || (a.minute == b.minute
                   && (a.second < b.second || (a.second == b.second && a.micro < b.micro))))))
    ensures TimeOfDay(a) == TimeOfDay(b) <==>
      a.hour == b.hour && a.minute == b.minute && a.second == b.second && a.micro == b.micro
  {
    PlaceValue(a.hour, a.minute, b.hour, b.minute, 60);
    var ma, mb := a.hour * 60 + a.minute, b.hour * 60 + b.minute;
    PlaceValue(ma, a.second, mb, b.second, 60);
    var sa, sb := ma * 60 + a.second, mb * 60 + b.second;
    PlaceValue(sa, a.micro, sb, b.micro, MicrosPerSecond);
  }

  /** Microsecond counts follow chronological order, in both directions, and tell instants apart. */
  lemma MicrosOrder(a: DateTime, b: DateTime)
    requires Valid(a) && Valid(b)
    ensures ToMicros(a) < ToMicros(b) <==> Before(a, b)
    ensures ToMicros(a) == ToMicros(b) <==> a == b
  {
    DaysOrder(a.date, b.date);
    TimeOfDayOrder(a, b);
    TimeOfDayOrder(b, a);
    PlaceValue(DaysFromCivil(a.date), TimeOfDay(a), DaysFromCivil(b.date), TimeOfDay(b), MicrosPerDay);
  }
}

=== FILE: correlation.dfy ===
/** The adjacent-pair rule both scripts run over the extracted events: a
    restart is due at the first position `i` where an `'Out dated connection'`
    event is directly followed by a `'Connection check task end'` event no more
    than five minutes later. */
module Correlation {
  import opened Outcome
  import opened Civil
  import opened Events

  /** `timedelta(minutes=5)`: the largest gap between the pair that still fires. */
  const MaxGap := 5 * 60 * MicrosPerSecond

  /** The pair at positions `i`, `i + 1` matches the rule. */
  predicate Fires(events: seq<Event>, i: int) {
    && 0 <= i && i + 1 < |events|
    && events[i].kind == OutdatedConnection
    && events[i + 1].kind == ConnectionCheckEnd
    && events[i + 1].at - events[i].at <= MaxGap
  }

  /** The `if len(events) >= 2` guard and the `for`/`break` scan: the position of the pair
      that triggers the one restart of this cycle, or `None` when no restart is due. */
  method FirstFiring(events: seq<Event>) returns (fire: Option<nat>)
    ensures fire.Some? ==> Fires(events, fire.value)
    ensures fire.Some? ==> forall j :: 0 <= j < fire.value ==> !Fires(events, j)
    ensures fire.None? <==> forall j :: !Fires(events, j)
  {
    fire := None;
    if |events| >= 2 {
      var i := 0;
      while i < |events| - 1
        invariant 0 <= i <= |events| - 1
        invariant forall j :: 0 <= j < i ==> !Fires(events, j)
      {
        if events[i].kind == OutdatedConnection && events[i + 1].kind == ConnectionCheckEnd {
          var gap := events[i + 1].at - events[i].at;
          if gap <= MaxGap {
            assert Fires(events, i);
            fire := Some(i);
            return;
          }
        }
        i := i + 1;
      }
    }
  }

  /** Fewer than two events never fire. */
  lemma ShortListNeverFires(events: seq<Event>)
    requires |events| < 2
    ensures forall j :: !Fires(events, j)
  {
  }

  /** The gap bound is inclusive: exactly five minutes fires, one microsecond more does not. */
  lemma GapBoundInclusive(t: int)
    ensures Fires([Event(OutdatedConnection, t), Event(ConnectionCheckEnd, t + MaxGap)], 0)
    ensures !Fires([Event(OutdatedConnection, t), Event(ConnectionCheckEnd, t + MaxGap + 1)], 0)
  {
  }

  /** A list with no `'Out dated connection'` event never fires, whatever else it holds. */
  lemma NoTriggerNoFiring(events: seq<Event>)
    requires forall k :: 0 <= k < |events| ==> events[k].kind != OutdatedConnection
    ensures forall j :: !Fires(events, j)
  {
  }
}

=== FILE: cycles.dfy ===
/** One iteration of each script's top-level `while True` loop: read the log,
    run the adjacent-pair rule, restart on a firing pair, and (for
    scripts/ServicesMonitoring.py) run the service sweep. The sleeps between
    iterations are not part of the trace. */
module Cycles {
  import opened Outcome
  import opened Events
  import opened Correlation
  import opened Executor
  import opened Probes
  import opened Sweep
  import NacosLogs
  import AppLogs

  /** Kinds the log-based extractors can emit never trigger the rule. */
  lemma ExtractedKindsNeverFire(events: seq<Event>)
    requires forall k :: 0 <= k < |events| ==>
      events[k].kind == StartupErrors || events[k].kind == NacosFailedToStart || events[k].kind == ApplicationRunFailed
    ensures forall j :: !Fires(events, j)
  {
    assert StartupErrors[0] != OutdatedConnection[0];
    assert NacosFailedToStart[0] != OutdatedConnection[0];
    assert ApplicationRunFailed[0] != OutdatedConnection[0];
  }

  /** The rule never fires on what `check_nacos_logs` returns. */
  lemma NacosLogsNeverFire(file: LogFile, now: int)
    ensures forall j :: !Fires(NacosLogs.CheckNacosLogs(file, now), j)
  {
    ExtractedKindsNeverFire(NacosLogs.CheckNacosLogs(file, now));
  }

  /** The rule never fires on what a successful `check_logs` returns. */
  lemma AppLogsNeverFire(file: LogFile)
    requires AppLogs.CheckLogs(file).Success?
    ensures forall j :: !Fires(AppLogs.CheckLogs(file).value, j)
  {
    ExtractedKindsNeverFire(AppLogs.CheckLogs(file).value);
  }

  /** One iteration of the loop in scripts/ServicesMonitoring.py. Because the rule never
      fires, the iteration issues exactly what the service sweep issues. */
  method ServicesCycle(file: LogFile, now: int, server: ServerHost, port: ConnectOutcome, hosts: seq<ServiceHost>)
    returns (t: seq<Action>)
    requires |hosts| == |ServicesToMonitor|
    ensures t == MonitorServices(port, server, hosts)
  {
    var events := NacosLogs.CheckNacosLogs(file, now);
    t := [];
    if |events| >= 2 {
      NacosLogsNeverFire(file, now);
      var fire := FirstFiring(events);
      assert fire.None?;
      if fire.Some? {
        t := RestartServer(server);
      }
    }
    t := t + MonitorServices(port, server, hosts);
  }

  /** One iteration of the loop in nacos-app-monitoring.py. The iteration either ends the
      script, with the `ValueError` of the first marker line whose stamp does not parse,
      or issues nothing at all. */
  method AppCycle(file: LogFile, server: ServerHost) returns (r: Result<seq<Action>, nat>)
    ensures r.Failure? <==> file.Readable? && exists i :: 0 <= i < |file.lines| && AppLogs.Raises(file.lines[i])
    ensures r.Failure? ==> file.Readable? && r.error < |file.lines| && AppLogs.Raises(file.lines[r.error])
    ensures r.Success? ==> r.value == []
  {
    var read := AppLogs.CheckLogs(file);
    if read.Failure? {
      return Failure(read.error);
    }
    var events := read.value;
    var t := [];
    if |events| >= 2 {
      AppLogsNeverFire(file);
      var fire := FirstFiring(events);
      assert fire.None?;
      if fire.Some? {
        t := RestartServer(server);
      }
    }
    r := Success(t);
  }
}

=== FILE: events.dfy ===
/** What both scripts extract from the Nacos log: `(kind, timestamp)` events,
    kept in the order their lines appear in the file. */
module Events {
  import opened Outcome

  /** One `(kind, timestamp)` tuple; `at` counts microseconds from 0001-01-01 00:00:00. */
  datatype Event = Event(kind: string, at: int)

  /** The log file as `file.readlines()` returns it, or the `IOError` raised opening or reading it. */
  datatype LogFile = Unreadable | Readable(lines: seq<string>)

  /** Marker substrings, which double as the kind of the event a line yields. */
  const StartupErrors := "ERROR Startup errors"
  const NacosFailedToStart := "ERROR Nacos failed to start"
  const ApplicationRunFailed := "ERROR Application run failed"

  /** The two kinds the correlation rule looks for. */
  const OutdatedConnection := "Out dated connection"
  const ConnectionCheckEnd := "Connection check task end"

  /** The events of a per-line classification, in line order: what `found_events.append` builds. */
  function Keep(xs: seq<Option<Event>>): (r: seq<Event>)
    ensures |r| <= |xs|
  {
    if |xs| == 0 then [] else Keep(xs[..|xs| - 1]) + ToSeq(xs[|xs| - 1])
  }

  /** An event is collected exactly when some line yields it. */
  lemma {:induction false} KeepMembers(xs: seq<Option<Event>>)
    ensures forall e :: e in Keep(xs) <==> Some(e) in xs
  {
    if |xs| > 0 {
      var n := |xs| - 1;
      KeepMembers(xs[..n]);
      assert xs == xs[..n] + [xs[n]];
      assert Keep(xs) == Keep(xs[..n]) + ToSeq(xs[n]);
    }
  }

  /** Classifying a file in two halves yields the two halves' events, one after the other. */
  lemma {:induction false} KeepAppend(a: seq<Option<Event>>, b: seq<Option<Event>>)
    ensures Keep(a + b) == Keep(a) + Keep(b)
    decreases |b|
  {
    if |b| == 0 {
      assert a + b == a;
    } else {
      var b' := b[..|b| - 1];
      assert (a + b)[..|a + b| - 1] == a + b';
      KeepAppend(a, b');
    }
  }

  /** A line that yields no event leaves the events of the others unchanged. */
  lemma KeepSkipsNone(a: seq<Option<Event>>, b: seq<Option<Event>>)
    ensures Keep(a + [None] + b) == Keep(a + b)
  {
    KeepAppend(a, [None]);
    assert Keep([None]) == Keep([]) + ToSeq(None);
    assert Keep(a + [None]) == Keep(a);
    KeepAppend(a + [None], b);
    KeepAppend(a, b);
  }

  /** The line numbers the events of `Keep(xs)` come from: increasing, so no event is re-sorted,
      and covering exactly the lines that yield an event. */
  function Origins(xs: seq<Option<Event>>): (idx: seq<nat>)
    ensures |idx| == |Keep(xs)|
    ensures forall k :: 0 <= k < |idx| ==> idx[k] < |xs| && xs[idx[k]] == Some(Keep(xs)[k])
    ensures forall k, j :: 0 <= k < j < |idx| ==> idx[k] < idx[j]
    ensures forall i :: 0 <= i < |xs| ==> (xs[i].Some? <==> i in idx)
  {
    if |xs| == 0 then []
    else
      var n := |xs| - 1;
      var init := Origins(xs[..n]);
      OriginsStep(xs, init);
      init + (if xs[n].Some? then [n] else [])
  }

  lemma OriginsStep(xs: seq<Option<Event>>, init: seq<nat>)
    requires |xs| > 0
    requires |init| == |Keep(xs[..|xs| - 1])|
    requires forall k :: 0 <= k < |init| ==> init[k] < |xs| - 1 && xs[..|xs| - 1][init[k]] == Some(Keep(xs[..|xs| - 1])[k])
    requires forall k, j :: 0 <= k < j < |init| ==> init[k] < init[j]
    requires forall i :: 0 <= i < |xs| - 1 ==> (xs[..|xs| - 1][i].Some? <==> i in init)
    ensures var idx := init + (if xs[|xs| - 1].Some? then [|xs| - 1] else []);
      && |idx| == |Keep(xs)|
      && (forall k :: 0 <= k < |idx| ==> idx[k] < |xs| && xs[idx[k]] == Some(Keep(xs)[k]))
      && (forall k, j :: 0 <= k < j < |idx| ==> idx[k] < idx[j])
      && (forall i :: 0 <= i < |xs| ==> (xs[i].Some? <==> i in idx))
  {
    OriginsStepHits(xs, init);
    OriginsStepCovers(xs, init);
  }

  lemma OriginsStepHits(xs: seq<Option<Event>>, init: seq<nat>)
    requires |xs| > 0
    requires |init| == |Keep(xs[..|xs| - 1])|
    requires forall k :: 0 <= k < |init| ==> init[k] < |xs| - 1 && xs[..|xs| - 1][init[k]] == Some(Keep(xs[..|xs| - 1])[k])
    ensures var idx := init + (if xs[|xs| - 1].Some? then [|xs| - 1] else []);
      && |idx| == |Keep(xs)|
      && (forall k :: 0 <= k < |idx| ==> idx[k] < |xs| && xs[idx[k]] == Some(Keep(xs)[k]))
  {
    var n := |xs| - 1;
    var pre := Keep(xs[..n]);
    var idx := init + (if xs[n].Some? then [n] else []);
    assert Keep(xs) == pre + ToSeq(xs[n]);
    forall k | 0 <= k < |idx| ensures idx[k] < |xs| && xs[idx[k]] == Some(Keep(xs)[k]) {
      if k < |init| {
        assert idx[k] == init[k];
        assert xs[..n][init[k]] == xs[init[k]];
        assert Keep(xs)[k] == pre[k];
      }
    }
  }

  lemma OriginsStepCovers(xs: seq<Option<Event>>, init: seq<nat>)
    requires |xs| > 0
    requires forall k :: 0 <= k < |init| ==> init[k] < |xs| - 1
    requires forall i :: 0 <= i < |xs| - 1 ==> (xs[..|xs| - 1][i].Some? <==> i in init)
    ensures var idx := init + (if xs[|xs| - 1].Some? then [|xs| - 1] else []);
      forall i :: 0 <= i < |xs| ==> (xs[i].Some? <==> i in idx)
  {
    var n := |xs| - 1;
    var idx := init + (if xs[n].Some? then [n] else []);
    forall i | 0 <= i < |xs| ensures xs[i].Some? <==> i in idx {
      if i < n {
        assert xs[..n][i] == xs[i];
        assert i in idx <==> i in init;
      } else {
        assert n !in init;
      }
    }
  }
}

=== FILE: executor.dfy ===
/** The restart sequence both scripts share (`restart_nacos_server` /
    `start_nacos_server` in scripts/ServicesMonitoring.py, `restart_server` /
    `start_server` in nacos-app-monitoring.py), as the trace of external
    actions it issues. */
module Executor {

  /** An externally visible step of the watchdog: a command it issues, whether or not
      the command then actually starts. */
  datatype Action =
    | ProbePort(host: string, port: int)   // a TCP connect attempt
    | QueryService(name: string)           // `sc query <name>`
    | RunShutdown                          // `cmd /c shutdown.cmd` issued, waited for
    | Pause(seconds: nat)                  // `time.sleep`
    | LaunchStartup                        // `startup.cmd -m standalone` issued, not waited for
    | NetStart(name: string)               // `net start <name>` issued

  /** How an issued, waited-for command ends: with an exit code, or by raising instead
      (it may never have started). */
  datatype RunOutcome = Exited(code: int) | Raised

  /** What the restart meets on the host: whether `os.chdir` into the server's `bin`
      directory succeeds, and how the shutdown script ends. */
  datatype ServerHost = ServerHost(dirReachable: bool, shutdown: RunOutcome)

  /** The settle delay between shutdown and startup. */
  const SettleSeconds := 10

  /** The sequence a restart that meets no failure issues. */
  const FullRestart := [RunShutdown, Pause(SettleSeconds), LaunchStartup]

  /** The shutdown finished cleanly. */
  predicate ShutdownSucceeded(host: ServerHost) {
    host.dirReachable && host.shutdown == Exited(0)
  }

  /** The restart: change directory, shut down and wait, stop on a non-zero exit code,
      settle, then launch startup. Every exception is caught and ends the sequence. */
  function RestartServer(host: ServerHost): (t: seq<Action>)
    ensures t <= FullRestart
    ensures t == FullRestart <==> ShutdownSucceeded(host)
    ensures !ShutdownSucceeded(host) ==> |t| <= 1
    ensures multiset(t)[LaunchStartup] == (if ShutdownSucceeded(host) then 1 else 0)
    ensures RunShutdown in t <==> host.dirReachable
  {
    if !host.dirReachable then []
    else
      match host.shutdown
      case Raised => [RunShutdown]
      case Exited(code) =>
        if code != 0 then [RunShutdown]
        else [RunShutdown, Pause(SettleSeconds)] + StartServer()
  }

  /** The start: change directory and launch startup without waiting; a failed launch is
      only logged. */
  function StartServer(): seq<Action> {
    [LaunchStartup]
  }

  /** A non-zero shutdown exit code means startup is never launched. */
  lemma FailedShutdownAborts(dirReachable: bool, code: int)
    requires code != 0
    ensures LaunchStartup !in RestartServer(ServerHost(dirReachable, Exited(code)))
    ensures |RestartServer(ServerHost(dirReachable, Exited(code)))| <= 1
  {
  }

  /** After a clean shutdown, startup is launched exactly once, after the shutdown and the settle delay. */
  lemma CleanShutdownStarts(host: ServerHost)
    requires ShutdownSucceeded(host)
    ensures var t := RestartServer(host);
      exists i, j, k :: 0 <= i < j < k < |t| && t[i] == RunShutdown && t[j] == Pause(SettleSeconds) && t[k] == LaunchStartup
  {
    var t := RestartServer(host);
    assert t[0] == RunShutdown && t[1] == Pause(SettleSeconds) && t[2] == LaunchStartup;
  }
}

=== FILE: nacos_logs.dfy ===
/** `check_nacos_logs` of scripts/ServicesMonitoring.py: every non-blank line
    whose first 23 characters read as `YYYY-MM-DD HH:MM:SS,fff`, whose time lies
    no more than 180 seconds before `now`, and which names a startup-failure
    marker yields one event, in file order. */
module NacosLogs {
  import opened Outcome
  import opened Text
  import opened Civil
  import opened Stamp
  import opened Events

  /** `timedelta(seconds=180)`: how far back a line may lie and still count. */
  const Horizon := 180 * MicrosPerSecond

  /** The event kind the `if`/`elif` chain gives a line: the first marker wins. */
  function KindOf(line: string): (k: Option<string>)
    ensures k.Some? <==> Contains(line, StartupErrors) || Contains(line, NacosFailedToStart)
    ensures k.Some? ==> k.value == StartupErrors || k.value == NacosFailedToStart
    ensures k.Some? ==> Contains(line, k.value)
    ensures Contains(line, StartupErrors) ==> k == Some(StartupErrors)
  {
    if Contains(line, StartupErrors) then Some(StartupErrors)
    else if Contains(line, NacosFailedToStart) then Some(NacosFailedToStart)
    else None
  }

  /** One pass of the loop body for `line`, with the wall clock reading `now`. */
  function LineEvent(line: string, now: int): (r: Option<Event>)
    ensures r.Some? ==> KindOf(line) == Some(r.value.kind) && now - r.value.at <= Horizon
  {
    if IsBlank(line) then None
    else
      match ParseComma(Take(line, CommaWidth))
      case None => None
      case Some(t) =>
        var at := ToMicros(t);
        if now - at <= Horizon then
          match KindOf(line)
          case None => None
          case Some(kind) => Some(Event(kind, at))
        else None
  }

  /** The per-line outcome of every line of the file. */
  function Classify(lines: seq<string>, now: int): (r: seq<Option<Event>>)
    ensures |r| == |lines|
    ensures forall i :: 0 <= i < |lines| ==> r[i] == LineEvent(lines[i], now)
  {
    seq(|lines|, i requires 0 <= i < |lines| => LineEvent(lines[i], now))
  }

  /** The events found in the lines `file.readlines()` returned. */
  function Extract(lines: seq<string>, now: int): (r: seq<Event>)
    ensures |r| <= |lines|
    ensures forall k :: 0 <= k < |r| ==>
      (r[k].kind == StartupErrors || r[k].kind == NacosFailedToStart) && now - r[k].at <= Horizon
  {
    var xs := Classify(lines, now);
    var r := Keep(xs);
    assert forall k :: 0 <= k < |r| ==>
      (r[k].kind == StartupErrors || r[k].kind == NacosFailedToStart) && now - r[k].at <= Horizon
    by {
      var idx := Origins(xs);
      forall k | 0 <= k < |r|
        ensures (r[k].kind == StartupErrors || r[k].kind == NacosFailedToStart) && now - r[k].at <= Horizon
      {
        assert LineEvent(lines[idx[k]], now) == Some(r[k]);
      }
    }
    r
  }

  /** The whole of `check_nacos_logs`: an unreadable or missing file yields no events. */
  function CheckNacosLogs(file: LogFile, now: int): (r: seq<Event>)
    ensures file.Unreadable? ==> r == []
    ensures file.Readable? ==> r == Extract(file.lines, now)
    ensures forall k :: 0 <= k < |r| ==>
      (r[k].kind == StartupErrors || r[k].kind == NacosFailedToStart) && now - r[k].at <= Horizon
  {
    match file
    case Unreadable => []
    case Readable(lines) => Extract(lines, now)
  }

  /** The line each extracted event comes from: strictly increasing, so events keep
      file order, and hitting exactly the lines that yield an event. */
  function Sources(lines: seq<string>, now: int): (idx: seq<nat>)
    ensures |idx| == |Extract(lines, now)|
    ensures forall k :: 0 <= k < |idx| ==>
      idx[k] < |lines| && LineEvent(lines[idx[k]], now) == Some(Extract(lines, now)[k])
    ensures forall k, j :: 0 <= k < j < |idx| ==> idx[k] < idx[j]
    ensures forall i :: 0 <= i < |lines| ==> (LineEvent(lines[i], now).Some? <==> i in idx)
  {
    Origins(Classify(lines, now))
  }

  /** A line starting with a stamp in the writer's layout yields an event exactly when it
      is recent enough and names a marker; the event carries the instant the stamp spells. */
  lemma StampedLine(t: DateTime, rest: string, now: int)
    requires CommaPrintable(t)
    ensures var line := FormatComma(t) + rest;
      LineEvent(line, now)
        == if now - ToMicros(t) <= Horizon && KindOf(line).Some?
           then Some(Event(KindOf(line).value, ToMicros(t)))
           else None
  {
    var line := FormatComma(t) + rest;
    assert Take(line, CommaWidth) == FormatComma(t);
    CommaRoundTrip(FormatComma(t), t);
    FormatPlainParts(t);
    assert line[0] == FormatPlain(t)[0..4][0];
    assert !IsBlank(line) by {
      assert !IsSpace(line[0]);
    }
  }

  /** Every event comes from a line that starts with the writer's spelling of the event's instant. */
  lemma EventLineIsStamped(line: string, now: int)
    requires LineEvent(line, now).Some?
    ensures exists t :: CommaPrintable(t) && FormatComma(t) <= line && ToMicros(t) == LineEvent(line, now).value.at
  {
    var p := Take(line, CommaWidth);
    var t := ParseComma(p).value;
    CommaRoundTrip(p, t);
    assert FormatComma(t) <= line;
  }

  /** The blank-line test never decides anything: a blank line has no stamp to parse. */
  lemma BlankLineHasNoStamp(line: string)
    requires IsBlank(line)
    ensures ParseComma(Take(line, CommaWidth)) == None
  {
    var p := Take(line, CommaWidth);
    if |p| == CommaWidth {
      assert p[..19][0..4][0] == line[0];
      assert !IsDigit(line[0]);
    }
  }

  /** Extraction of a file split in two is the extraction of each part, in order. */
  lemma ExtractAppend(a: seq<string>, b: seq<string>, now: int)
    ensures Extract(a + b, now) == Extract(a, now) + Extract(b, now)
  {
    var ca, cb, cab := Classify(a, now), Classify(b, now), Classify(a + b, now);
    forall i | 0 <= i < |cab| ensures cab[i] == (ca + cb)[i] {
      if i < |a| {
        assert (a + b)[i] == a[i];
      } else {
        assert (a + b)[i] == b[i - |a|];
      }
    }
    assert cab == ca + cb;
    KeepAppend(ca, cb);
  }

  /** A line whose stamp does not parse is passed over and the lines after it are still read. */
  lemma UnparsableLineSkipped(a: seq<string>, line: string, b: seq<string>, now: int)
    requires ParseComma(Take(line, CommaWidth)).None?
    ensures Extract(a + [line] + b, now) == Extract(a + b, now)
  {
    assert Classify([line], now) == [None];
    assert Extract([line], now) == [];
    ExtractAppend(a, [line], now);
    assert Extract(a + [line], now) == Extract(a, now);
    ExtractAppend(a + [line], b, now);
    ExtractAppend(a, b, now);
  }

  /** A single line yields at most one event; naming both markers, it is a startup-errors event. */
  lemma OneEventPerLine(line: string, now: int)
    ensures |Extract([line], now)| <= 1
    ensures Contains(line, StartupErrors) ==> forall e :: e in Extract([line], now) ==> e.kind == StartupErrors
  {
    assert Classify([line], now) == [LineEvent(line, now)];
    assert Keep([LineEvent(line, now)]) == Keep([]) + ToSeq(LineEvent(line, now));
  }
}

=== FILE: outcome.dfy ===
/** The two failure-carrying wrappers the model uses: `Option` for a step that
    yields a value or nothing, `Result` for a step that yields a value or
    raises an exception the model names. */
module Outcome {

  datatype Option<+T> = None | Some(value: T)

  datatype Result<+T, +E> = Success(value: T) | Failure(error: E)

  /** The zero- or one-element list an optional value stands for. */
  function ToSeq<T>(o: Option<T>): (r: seq<T>)
    ensures |r| <= 1
    ensures o.None? ==> r == []
    ensures o.Some? ==> r == [o.value]
  {
    match o
    case None => []
    case Some(v) => [v]
  }
}

=== FILE: probes.dfy ===
/** The two liveness probes of scripts/ServicesMonitoring.py, reduced to the
    decision they make on what the operating system reports. */
module Probes {
  import opened Text

  /** What `s.connect_ex((host, port))` reports: an errno, or an exception raised around it. */
  datatype ConnectOutcome = ConnectResult(errno: int) | ConnectRaised

  /** What `subprocess.run(['sc', 'query', name], ...)` reports: its stdout, or an exception. */
  datatype QueryOutcome = QueryOutput(stdout: string) | QueryRaised

  /** `check_port_status`: the port is live exactly when the connect reports success. */
  function PortLive(c: ConnectOutcome): (live: bool)
    ensures live <==> c == ConnectResult(0)
  {
    match c
    case ConnectResult(errno) => errno == 0
    case ConnectRaised => false
  }

  /** `check_service_status`: the service is live exactly when its query output holds
      `RUNNING` somewhere; a failed query counts as not live. */
  function ServiceLive(q: QueryOutcome): (live: bool)
    ensures live <==> q.QueryOutput? && exists i :: OccursAt(q.stdout, "RUNNING", i)
  {
    match q
    case QueryOutput(out) => Contains(out, "RUNNING")
    case QueryRaised => false
  }
}

=== FILE: scenarios.dfy ===
/** Concrete small inputs, worked through by the verifier. */
module Scenarios {
  import opened Outcome
  import opened Civil
  import opened Stamp
  import opened Events
  import opened Correlation
  import opened Probes
  import opened Executor
  import opened Sweep
  import opened Text

  /** Day numbers agree with Python's `date.toordinal()` less one. */
  lemma KnownDayNumbers()
    ensures DaysFromCivil(Date(1, 1, 1)) == 0
    ensures DaysFromCivil(Date(1970, 1, 1)) == 719162
    ensures DaysFromCivil(Date(2000, 3, 1)) == 730179
  {
  }

  lemma PadYear2024()
    ensures Pad(2024, 4) == "2024"
  {
    assert Pad(2, 1) == "2";
    assert Pad(20, 2) == "20";
    assert Pad(202, 3) == "202";
  }

  /** `strptime` at fixed width reads a 19-character log stamp into its fields. */
  lemma ParsesPlainStamp()
    ensures ParsePlain("2024-01-01 10:03:00") == Some(DateTime(Date(2024, 1, 1), 10, 3, 0, 0))
  {
    var a := DateTime(Date(2024, 1, 1), 10, 3, 0, 0);
    PadYear2024();
    assert Pad(1, 2) == "01" && Pad(10, 2) == "10" && Pad(3, 2) == "03" && Pad(0, 2) == "00";
    assert FormatPlain(a) == "2024-01-01 10:03:00";
    PlainRoundTrip("2024-01-01 10:03:00", a);
  }

  lemma PadMillis()
    ensures Pad(125, 3) == "125"
  {
    assert Pad(1, 1) == "1";
    assert Pad(12, 2) == "12";
  }

  /** `strptime` at fixed width reads a 23-character log stamp, the fraction as milliseconds. */
  lemma ParsesCommaStamp()
    ensures ParseComma("2024-01-01 10:03:00,125") == Some(DateTime(Date(2024, 1, 1), 10, 3, 0, 125000))
  {
    var s := "2024-01-01 10:03:00,125";
    ParsesPlainStamp();
    PadMillis();
    assert s[..19] == "2024-01-01 10:03:00";
    assert s[20..23] == Pad(125, 3);
    assert Pow10(3) == 1000;
    NumberOfPad(125, 3);
  }

  /** A stamp naming February 29th of a common year is rejected, whatever else it says. */
  lemma RejectsMissingLeapDay(s: string)
    requires PlainLayout(s) && s[5..7] == "02" && s[8..10] == "29"
    requires !IsLeapYear(Number(s[0..4]))
    ensures ParsePlain(s) == None
  {
    assert Pad(2, 2) == "02" && Pad(29, 2) == "29" by {
      assert Pad(0, 1) == "0" && Pad(2, 1) == "2";
    }
    NumberOfPad(2, 2);
    NumberOfPad(29, 2);
  }

  /** Three minutes between the pair fires the rule; six minutes does not. */
  lemma PairGapScenarios()
    ensures var t0 := ToMicros(DateTime(Date(2024, 1, 1), 10, 0, 0, 0));
            var t3 := ToMicros(DateTime(Date(2024, 1, 1), 10, 3, 0, 0));
            var t6 := ToMicros(DateTime(Date(2024, 1, 1), 10, 6, 0, 0));
      && Fires([Event(OutdatedConnection, t0), Event(ConnectionCheckEnd, t3)], 0)
      && !Fires([Event(OutdatedConnection, t0), Event(ConnectionCheckEnd, t6)], 0)
  {
  }

  /** A service reporting STOPPED is queried and then started by name. */
  lemma StoppedServiceIsStarted()
    ensures SweepServices(["ApolloTcp"], [ServiceHost(QueryOutput("STATE : 1  STOPPED"), Exited(0))])
         == [QueryService("ApolloTcp"), NetStart("ApolloTcp")]
    ensures SweepServices(["ApolloTcp"], [ServiceHost(QueryOutput("STATE : 4  RUNNING"), Exited(0))])
         == [QueryService("ApolloTcp")]
  {
    assert OccursAt("STATE : 4  RUNNING", "RUNNING", 11);
    var stopped := "STATE : 1  STOPPED";
    forall i ensures !OccursAt(stopped, "RUNNING", i) {
      if 0 <= i <= |stopped| - 7 {
        assert stopped[i..i + 7][0] == stopped[i];
        assert stopped[i] != 'R';
      }
    }
  }
}

=== FILE: stamp.dfy ===
/** The two fixed-width leading timestamps the scripts read from a log line:
    `%Y-%m-%d %H:%M:%S` (19 characters) and `%Y-%m-%d %H:%M:%S,%f` with a
    three-digit fraction (23 characters), each with the layout it is parsed
    from, so that parsing can be stated as the inverse of rendering. */
module Stamp {
  import opened Text
  import opened Civil
  import opened Outcome

  const PlainWidth := 19
  const CommaWidth := 23

  function Pow10(w: nat): (p: nat)
    ensures p >= 1
  {
    if w == 0 then 1 else 10 * Pow10(w - 1)
  }

  predicate AllDigits(s: string) {
    forall i :: 0 <= i < |s| ==> IsDigit(s[i])
  }

  /** The number a run of decimal digits spells, most significant first. */
  function Number(s: string): (n: nat)
    requires AllDigits(s)
  {
    if |s| == 0 then 0 else 10 * Number(s[..|s| - 1]) + (s[|s| - 1] - '0') as nat
  }

  /** `n` written with exactly `w` digits, zero-padded on the left. */
  function Pad(n: nat, w: nat): (s: string)
    ensures |s| == w && AllDigits(s)
  {
    if w == 0 then [] else Pad(n / 10, w - 1) + [('0' as int + n % 10) as char]
  }

  /** Rendering then reading a number that fits in `w` digits gives it back. */
  lemma {:induction false} NumberOfPad(n: nat, w: nat)
    requires n < Pow10(w)
    ensures Number(Pad(n, w)) == n
  {
    if w > 0 {
      var s := Pad(n, w);
      assert s[..|s| - 1] == Pad(n / 10, w - 1);
      assert (s[|s| - 1] - '0') as nat == n % 10;
      NumberOfPad(n / 10, w - 1);
      assert Number(s) == 10 * (n / 10) + n % 10;
    }
  }

  /** Reading a run of digits then rendering it at the same width gives the run back. */
  lemma {:induction false} PadOfNumber(s: string)
    requires AllDigits(s)
    ensures Number(s) < Pow10(|s|)
    ensures Pad(Number(s), |s|) == s
  {
    if |s| > 0 {
      var init := s[..|s| - 1];
      PadOfNumber(init);
      var n := Number(s);
      assert n / 10 == Number(init) && n % 10 == (s[|s| - 1] - '0') as int;
      assert s == init + [s[|s| - 1]];
    }
  }

  /** The separator characters of `YYYY-MM-DD HH:MM:SS` sit where the layout puts them. */
  predicate PlainLayout(s: string) {
    && |s| == PlainWidth
    && s[4] == '-' && s[7] == '-' && s[10] == ' ' && s[13] == ':' && s[16] == ':'
    && AllDigits(s[0..4]) && AllDigits(s[5..7]) && AllDigits(s[8..10])
    && AllDigits(s[11..13]) && AllDigits(s[14..16]) && AllDigits(s[17..19])
  }

  /** `datetime.strptime(s, '%Y-%m-%d %H:%M:%S')` at fixed width: `None` stands for the `ValueError`. */
  function ParsePlain(s: string): (r: Option<DateTime>)
    ensures r.Some? ==> Valid(r.value) && r.value.micro == 0 && r.value.date.year < 10000
  {
    if !PlainLayout(s) then None
    else
      var t := DateTime(Date(Number(s[0..4]), Number(s[5..7]), Number(s[8..10])),
                        Number(s[11..13]), Number(s[14..16]), Number(s[17..19]), 0);
      PadOfNumber(s[0..4]);
      if Valid(t) then Some(t) else None
  }

  /** `datetime.strptime(s, '%Y-%m-%d %H:%M:%S,%f')` with a three-digit fraction, read as milliseconds. */
  function ParseComma(s: string): (r: Option<DateTime>)
    ensures r.Some? ==> Valid(r.value) && r.value.micro % 1000 == 0 && r.value.date.year < 10000
  {
    if |s| != CommaWidth || s[19] != ',' || !AllDigits(s[20..23]) then None
    else
      match ParsePlain(s[..19])
      case None => None
      case Some(t) =>
        PadOfNumber(s[20..23]);
        Some(t.(micro := Number(s[20..23]) * 1000))
  }

  /** A valid date-time whose year fits the four digits of `%Y`. */
  predicate FourDigitYear(t: DateTime) {
    Valid(t) && t.date.year < 10000
  }

  /** A date-time the 19-character layout can spell. */
  predicate PlainPrintable(t: DateTime) {
    FourDigitYear(t) && t.micro == 0
  }

  /** A date-time the 23-character layout can spell. */
  predicate CommaPrintable(t: DateTime) {
    FourDigitYear(t) && t.micro % 1000 == 0
  }

  /** How the log writer spells a date-time in the 19-character layout (the fraction is dropped). */
  function FormatPlain(t: DateTime): (s: string)
    requires FourDigitYear(t)
    ensures |s| == PlainWidth
  {
    Pad(t.date.year, 4) + "-" + Pad(t.date.month, 2) + "-" + Pad(t.date.day, 2) + " "
    + Pad(t.hour, 2) + ":" + Pad(t.minute, 2) + ":" + Pad(t.second, 2)
  }

  /** How the log writer spells a date-time in the 23-character layout. */
  function FormatComma(t: DateTime): (s: string)
    requires FourDigitYear(t)
    ensures |s| == CommaWidth
  {
    FormatPlain(t) + "," + Pad(t.micro / 1000, 3)
  }

  lemma FormatPlainParts(t: DateTime)
    requires FourDigitYear(t)
    ensures var s := FormatPlain(t);
      && s[0..4] == Pad(t.date.year, 4) && s[5..7] == Pad(t.date.month, 2) && s[8..10] == Pad(t.date.day, 2)
      && s[11..13] == Pad(t.hour, 2) && s[14..16] == Pad(t.minute, 2) && s[17..19] == Pad(t.second, 2)
      && s[4] == '-' && s[7] == '-' && s[10] == ' ' && s[13] == ':' && s[16] == ':'
  {
    var s := FormatPlain(t);
    var head := Pad(t.date.year, 4) + "-" + Pad(t.date.month, 2) + "-" + Pad(t.date.day, 2) + " "
      + Pad(t.hour, 2) + ":" + Pad(t.minute, 2) + ":";
    assert s == head + Pad(t.second, 2);
    assert s[17..19] == Pad(t.second, 2);
  }

  lemma PlainFromParts(s: string)
    requires |s| == PlainWidth
    ensures s == s[0..4] + [s[4]] + s[5..7] + [s[7]] + s[8..10] + [s[10]]
                 + s[11..13] + [s[13]] + s[14..16] + [s[16]] + s[17..19]
  {
  }

  lemma PlainParseOfFormat(t: DateTime)
    requires PlainPrintable(t)
    ensures ParsePlain(FormatPlain(t)) == Some(t)
  {
    FormatPlainParts(t);
    NumberOfPad(t.date.year, 4);
    NumberOfPad(t.date.month, 2);
    NumberOfPad(t.date.day, 2);
    NumberOfPad(t.hour, 2);
    NumberOfPad(t.minute, 2);
    NumberOfPad(t.second, 2);
  }

  lemma PlainFormatOfParse(s: string, t: DateTime)
    requires ParsePlain(s) == Some(t)
    ensures PlainPrintable(t) && s == FormatPlain(t)
  {
    PadOfNumber(s[0..4]);
    PadOfNumber(s[5..7]);
    PadOfNumber(s[8..10]);
    PadOfNumber(s[11..13]);
    PadOfNumber(s[14..16]);
    PadOfNumber(s[17..19]);
    PlainFromParts(s);
  }

  /** The 19-character parser accepts exactly the spellings of valid date-times, and reads back the one spelled. */
  lemma PlainRoundTrip(s: string, t: DateTime)
    ensures ParsePlain(s) == Some(t) <==> PlainPrintable(t) && s == FormatPlain(t)
  {
    if PlainPrintable(t) && s == FormatPlain(t) {
      PlainParseOfFormat(t);
    }
    if ParsePlain(s) == Some(t) {
      PlainFormatOfParse(s, t);
    }
  }

  lemma CommaParseOfFormat(t: DateTime)
    requires CommaPrintable(t)
    ensures ParseComma(FormatComma(t)) == Some(t)
  {
    var s := FormatComma(t);
    var plain := t.(micro := 0);
    var millis := t.micro / 1000;
    assert s[..19] == FormatPlain(t) && s[19] == ',' && s[20..23] == Pad(millis, 3);
    assert FormatPlain(t) == FormatPlain(plain);
    PlainRoundTrip(s[..19], plain);
    assert ParsePlain(s[..19]) == Some(plain);
    assert Pow10(3) == 1000;
    NumberOfPad(millis, 3);
    assert millis * 1000 == t.micro;
    assert plain.(micro := millis * 1000) == t;
  }

  lemma CommaFormatOfParse(s: string, t: DateTime)
    requires ParseComma(s) == Some(t)
    ensures CommaPrintable(t) && s == FormatComma(t)
  {
    var plain := t.(micro := 0);
    PlainRoundTrip(s[..19], plain);
    PadOfNumber(s[20..23]);
    assert FormatPlain(t) == FormatPlain(plain);
    assert s == s[..19] + [s[19]] + s[20..23];
  }

  /** The 23-character parser accepts exactly the spellings of valid millisecond date-times, and reads back the one spelled. */
  lemma CommaRoundTrip(s: string, t: DateTime)
    ensures ParseComma(s) == Some(t) <==> CommaPrintable(t) && s == FormatComma(t)
  {
    if CommaPrintable(t) && s == FormatComma(t) {
      CommaParseOfFormat(t);
    }
    if ParseComma(s) == Some(t) {
      CommaFormatOfParse(s, t);
    }
  }
}

=== FILE: sweep.dfy ===
/** `monitor_services` of scripts/ServicesMonitoring.py: probe the Nacos port and
    restart Nacos when it is down, then walk the fixed service list in order and
    issue `net start` for every service whose query does not report RUNNING. */
module Sweep {
  import opened Probes
  import opened Executor

  const NacosHost := "localhost"
  const NacosPort := 8848

  /** `services_to_monitor`, in list order. */
  const ServicesToMonitor: seq<string> := [
    "wmiApSrv", "ApolloEquipment", "ApolloEquipment2", "ApolloGateway",
    "ApolloGatewayHttps", "ApolloMonitor", "ApolloSystem", "ApolloTcp"
  ]

  /** What the host reports for one service: its `sc query` outcome, and how `net start`
      ends if it is issued (a non-zero exit is caught and logged; a raise is not). */
  datatype ServiceHost = ServiceHost(query: QueryOutcome, start: RunOutcome)

  /** A down service whose `net start` raises: the exception leaves `start_service`
      and ends the sweep. */
  predicate StartRaises(s: ServiceHost) {
    !ServiceLive(s.query) && s.start.Raised?
  }

  /** The loop over the services: query each, start those not running. */
  function SweepServices(names: seq<string>, hosts: seq<ServiceHost>): (t: seq<Action>)
    requires |hosts| == |names|
    ensures |t| <= 2 * |names|
    ensures forall i :: 0 <= i < |t| ==> t[i].QueryService? || t[i].NetStart?
    ensures |names| > 0 ==> |t| > 0 && t[0] == QueryService(names[0])
    decreases |names|
  {
    if |names| == 0 then []
    else if ServiceLive(hosts[0].query) then
      [QueryService(names[0])] + SweepServices(names[1..], hosts[1..])
    else if hosts[0].start.Raised? then
      [QueryService(names[0]), NetStart(names[0])]
    else
      [QueryService(names[0]), NetStart(names[0])] + SweepServices(names[1..], hosts[1..])
  }

  /** The services named by the queries of a trace, in trace order. */
  function Queried(t: seq<Action>): seq<string> {
    if |t| == 0 then []
    else (if t[0].QueryService? then [t[0].name] else []) + Queried(t[1..])
  }

  /** The services named by the `net start` commands of a trace, in trace order: the starts
      issued, including one that raised before the service started. */
  function Started(t: seq<Action>): seq<string> {
    if |t| == 0 then []
    else (if t[0].NetStart? then [t[0].name] else []) + Started(t[1..])
  }

  /** The services whose probe reports them down, in list order. */
  function Down(names: seq<string>, hosts: seq<ServiceHost>): seq<string>
    requires |hosts| == |names|
  {
    if |names| == 0 then []
    else (if ServiceLive(hosts[0].query) then [] else [names[0]]) + Down(names[1..], hosts[1..])
  }

  lemma {:induction false} QueriedAppend(a: seq<Action>, b: seq<Action>)
    ensures Queried(a + b) == Queried(a) + Queried(b)
  {
    if |a| == 0 {
      assert a + b == b;
    } else {
      assert (a + b)[0] == a[0];
      assert (a + b)[1..] == a[1..] + b;
      QueriedAppend(a[1..], b);
    }
  }

  lemma {:induction false} StartedAppend(a: seq<Action>, b: seq<Action>)
    ensures Started(a + b) == Started(a) + Started(b)
  {
    if |a| == 0 {
      assert a + b == b;
    } else {
      assert (a + b)[0] == a[0];
      assert (a + b)[1..] == a[1..] + b;
      StartedAppend(a[1..], b);
    }
  }

  /** When no `net start` raises, every service is queried in list order and exactly the
      down ones are started, in list order: no other service is started. */
  lemma {:induction false} SweepStartsExactlyDown(names: seq<string>, hosts: seq<ServiceHost>)
    requires |hosts| == |names|
    requires forall i :: 0 <= i < |hosts| ==> !StartRaises(hosts[i])
    ensures Queried(SweepServices(names, hosts)) == names
    ensures Started(SweepServices(names, hosts)) == Down(names, hosts)
  {
    if |names| > 0 {
      var rest := SweepServices(names[1..], hosts[1..]);
      assert forall i :: 0 <= i < |hosts[1..]| ==> hosts[1..][i] == hosts[i + 1];
      SweepStartsExactlyDown(names[1..], hosts[1..]);
      var head := if ServiceLive(hosts[0].query) then [QueryService(names[0])]
                  else [QueryService(names[0]), NetStart(names[0])];
      assert SweepServices(names, hosts) == head + rest;
      QueriedAppend(head, rest);
      StartedAppend(head, rest);
      assert names == [names[0]] + names[1..];
    }
  }

  /** A raising `net start` for the first service ends the sweep right there. */
  lemma FirstStartRaises(names: seq<string>, hosts: seq<ServiceHost>)
    requires |hosts| == |names| && 0 < |names|
    requires StartRaises(hosts[0])
    ensures Queried(SweepServices(names, hosts)) == names[..1]
    ensures Started(SweepServices(names, hosts)) == Down(names[..1], hosts[..1])
  {
    var t := SweepServices(names, hosts);
    assert t == [QueryService(names[0]), NetStart(names[0])];
    var tail := [NetStart(names[0])];
    assert t[1..] == tail && tail[1..] == [];
    assert Queried(tail) == [] + Queried([]);
    assert Started(tail) == [names[0]] + Started([]);
    assert Queried(t) == [names[0]] + Queried(tail);
    assert Started(t) == [] + Started(tail);
    assert names[..1] == [names[0]];
    assert names[..1][1..] == [] && hosts[..1][1..] == [];
    assert Down(names[..1], hosts[..1]) == [names[0]];
  }

  /** A raising `net start` for service `k` ends the sweep: the services after it are neither
      queried nor started. */
  lemma {:induction false} SweepStopsAtRaisingStart(names: seq<string>, hosts: seq<ServiceHost>, k: nat)
    requires |hosts| == |names| && k < |names|
    requires StartRaises(hosts[k])
    requires forall i :: 0 <= i < k ==> !StartRaises(hosts[i])
    ensures Queried(SweepServices(names, hosts)) == names[..k + 1]
    ensures Started(SweepServices(names, hosts)) == Down(names[..k + 1], hosts[..k + 1])
  {
    var t := SweepServices(names, hosts);
    if k == 0 {
      FirstStartRaises(names, hosts);
    } else {
      var rest := SweepServices(names[1..], hosts[1..]);
      assert forall i :: 0 <= i < |hosts[1..]| ==> hosts[1..][i] == hosts[i + 1];
      SweepStopsAtRaisingStart(names[1..], hosts[1..], k - 1);
      var head := if ServiceLive(hosts[0].query) then [QueryService(names[0])]
                  else [QueryService(names[0]), NetStart(names[0])];
      assert t == head + rest;
      QueriedAppend(head, rest);
      StartedAppend(head, rest);
      assert names[..k + 1][0] == names[0];
      assert names[..k + 1][1..] == names[1..][..k];
      assert names[..k + 1] == [names[0]] + names[1..][..k];
      assert hosts[..k + 1][1..] == hosts[1..][..k];
    }
  }

  /** `monitor_services`: the port probe, a restart exactly when the port is down, then the sweep. */
  function MonitorServices(port: ConnectOutcome, server: ServerHost, hosts: seq<ServiceHost>): (t: seq<Action>)
    requires |hosts| == |ServicesToMonitor|
    ensures |t| > 0 && t[0] == ProbePort(NacosHost, NacosPort)
    ensures var r := if PortLive(port) then [] else RestartServer(server);
      && 1 + |r| <= |t| && t[1..1 + |r|] == r
      && forall i :: 0 <= i < 1 + |r| ==> !t[i].QueryService? && !t[i].NetStart?
    ensures var r := if PortLive(port) then [] else RestartServer(server);
      1 + |r| <= |t| && t[1 + |r|..] == SweepServices(ServicesToMonitor, hosts)
    ensures multiset(t)[RunShutdown] == (if !PortLive(port) && server.dirReachable then 1 else 0)
    ensures multiset(t)[LaunchStartup] == (if !PortLive(port) && ShutdownSucceeded(server) then 1 else 0)
  {
    var restart := if PortLive(port) then [] else RestartServer(server);
    var sweep := SweepServices(ServicesToMonitor, hosts);
    TraceShape(restart, sweep);
    [ProbePort(NacosHost, NacosPort)] + restart + sweep
  }

  /** The probe, a restart prefix and a sweep, in that order: the restart sits right after
      the probe, and the shutdown and startup counts are the restart's own. */
  lemma TraceShape(restart: seq<Action>, sweep: seq<Action>)
    requires restart <= FullRestart
    requires forall i :: 0 <= i < |sweep| ==> sweep[i].QueryService? || sweep[i].NetStart?
    ensures var t := [ProbePort(NacosHost, NacosPort)] + restart + sweep;
      && |t| > 0 && t[0] == ProbePort(NacosHost, NacosPort)
      && 1 + |restart| <= |t| && t[1..1 + |restart|] == restart
      && (forall i :: 0 <= i < 1 + |restart| ==> !t[i].QueryService? && !t[i].NetStart?)
      && multiset(t)[RunShutdown] == multiset(restart)[RunShutdown]
      && multiset(t)[LaunchStartup] == multiset(restart)[LaunchStartup]
  {
    var t := [ProbePort(NacosHost, NacosPort)] + restart + sweep;
    assert forall i :: 0 <= i < |restart| ==> restart[i] == FullRestart[i];
    assert RunShutdown !in sweep && LaunchStartup !in sweep;
    assert multiset(t) == multiset([ProbePort(NacosHost, NacosPort)]) + multiset(restart) + multiset(sweep);
  }

  /** The probe and whatever restart follows it name no service. */
  lemma RestartNamesNoService(port: ConnectOutcome, server: ServerHost)
    ensures var head := [ProbePort(NacosHost, NacosPort)] + (if PortLive(port) then [] else RestartServer(server));
      Queried(head) == [] && Started(head) == []
  {
    var head := [ProbePort(NacosHost, NacosPort)] + (if PortLive(port) then [] else RestartServer(server));
    var restart := if PortLive(port) then [] else RestartServer(server);
    assert restart <= FullRestart;
    forall i | 0 <= i < |head| ensures !head[i].QueryService? && !head[i].NetStart? {
      if i > 0 {
        assert head[i] == restart[i - 1] == FullRestart[i - 1];
      }
    }
    NoServiceActions(head);
  }

  /** A sweep after a prefix that names no service queries and starts what the sweep alone does. */
  lemma SweepAfter(head: seq<Action>, names: seq<string>, hosts: seq<ServiceHost>)
    requires Queried(head) == [] && Started(head) == []
    requires |hosts| == |names|
    requires forall i :: 0 <= i < |hosts| ==> !StartRaises(hosts[i])
    ensures Queried(head + SweepServices(names, hosts)) == names
    ensures Started(head + SweepServices(names, hosts)) == Down(names, hosts)
  {
    SweepStartsExactlyDown(names, hosts);
    QueriedAppend(head, SweepServices(names, hosts));
    StartedAppend(head, SweepServices(names, hosts));
  }

  /** A trace without queries or `net start` commands names no service. */
  lemma {:induction false} NoServiceActions(t: seq<Action>)
    requires forall i :: 0 <= i < |t| ==> !t[i].QueryService? && !t[i].NetStart?
    ensures Queried(t) == [] && Started(t) == []
  {
    if |t| > 0 {
      assert forall i :: 0 <= i < |t[1..]| ==> t[1..][i] == t[i + 1];
      NoServiceActions(t[1..]);
    }
  }

  /** Whatever the port probe and the restart meet, `monitor_services` queries every listed
      service in list order and starts exactly the down ones, when no `net start` raises. */
  lemma MonitorStartsExactlyDown(port: ConnectOutcome, server: ServerHost, hosts: seq<ServiceHost>)
    requires |hosts| == |ServicesToMonitor|
    requires forall i :: 0 <= i < |hosts| ==> !StartRaises(hosts[i])
    ensures Queried(MonitorServices(port, server, hosts)) == ServicesToMonitor
    ensures Started(MonitorServices(port, server, hosts)) == Down(ServicesToMonitor, hosts)
  {
    var head := [ProbePort(NacosHost, NacosPort)] + (if PortLive(port) then [] else RestartServer(server));
    RestartNamesNoService(port, server);
    SweepAfter(head, ServicesToMonitor, hosts);
  }

  /** Each `net start` in `t` comes straight after the query of the same service. */
  predicate StartsFollowQueries(t: seq<Action>) {
    forall i :: 0 <= i < |t| && t[i].NetStart? ==> i > 0 && t[i - 1] == QueryService(t[i].name)
  }

  lemma FollowAppend(head: seq<Action>, rest: seq<Action>)
    requires StartsFollowQueries(head) && StartsFollowQueries(rest)
    requires |rest| > 0 ==> rest[0].QueryService?
    ensures StartsFollowQueries(head + rest)
  {
    var t := head + rest;
    forall i | 0 <= i < |t| && t[i].NetStart?
      ensures i > 0 && t[i - 1] == QueryService(t[i].name)
    {
      if i < |head| {
        assert t[i] == head[i] && t[i - 1] == head[i - 1];
      } else {
        var j := i - |head|;
        assert t[i] == rest[j];
        assert j > 0;
        assert t[i - 1] == rest[j - 1];
      }
    }
  }

  /** Each `net start` comes straight after the query of the same service: no other
      service's query or start comes between them. */
  lemma {:induction false} StartFollowsOwnQuery(names: seq<string>, hosts: seq<ServiceHost>)
    requires |hosts| == |names|
    ensures StartsFollowQueries(SweepServices(names, hosts))
  {
    if |names| > 0 {
      var t := SweepServices(names, hosts);
      var rest := SweepServices(names[1..], hosts[1..]);
      StartFollowsOwnQuery(names[1..], hosts[1..]);
      var head := if ServiceLive(hosts[0].query) then [QueryService(names[0])]
                  else [QueryService(names[0]), NetStart(names[0])];
      assert StartsFollowQueries(head);
      if hosts[0].start.Raised? && !ServiceLive(hosts[0].query) {
        assert t == head;
      } else {
        assert t == head + rest;
        FollowAppend(head, rest);
      }
    }
  }
}

=== FILE: text.dfy ===
/** Python string primitives the watchdog scripts rely on: slicing a prefix,
    substring membership (`p in s`) and `str.strip()` emptiness. */
module Text {

  /** Python's `s[:n]`: the first `n` characters, or all of `s` when it is shorter. */
  function Take(s: string, n: nat): (r: string)
    ensures |r| == if |s| < n then |s| else n
    ensures r <= s
  {
    if |s| <= n then s else s[..n]
  }

  /** `p` occurs in `s` starting at position `i`. */
  ghost predicate OccursAt(s: string, p: string, i: int) {
    0 <= i && i + |p| <= |s| && s[i..i + |p|] == p
  }

  lemma OccursShift(s: string, p: string, i: int)
    requires |s| > 0 && i >= 0
    ensures OccursAt(s[1..], p, i) <==> OccursAt(s, p, i + 1)
  {
    if i + |p| <= |s| - 1 {
      assert s[1..][i..i + |p|] == s[i + 1..i + 1 + |p|];
    }
  }

  /** Python's `p in s` for strings: some window of `s` equals `p`. */
  function Contains(s: string, p: string): (r: bool)
    ensures r <==> exists i :: OccursAt(s, p, i)
    decreases |s|
  {
    if p <= s then
      assert OccursAt(s, p, 0);
      true
    else if |s| == 0 then
      false
    else
      var rest := Contains(s[1..], p);
      assert rest ==> exists i :: OccursAt(s, p, i) by {
        if rest {
          var j :| OccursAt(s[1..], p, j);
          OccursShift(s, p, j);
        }
      }
      assert (exists i :: OccursAt(s, p, i)) ==> rest by {
        if exists i :: OccursAt(s, p, i) {
          var j :| OccursAt(s, p, j);
          assert j != 0;
          OccursShift(s, p, j - 1);
        }
      }
      rest
  }

  /** The characters Python's `str.isspace()` accepts, i.e. those `str.strip()` removes. */
  predicate IsSpace(c: char) {
    c == ' ' || ('\t' <= c <= '\r') || ('\U{1c}' <= c <= '\U{1f}') || c == '\U{85}' || c == '\U{a0}'
    || c == '\U{1680}' || ('\U{2000}' <= c <= '\U{200a}') || c == '\U{2028}' || c == '\U{2029}'
    || c == '\U{202f}' || c == '\U{205f}' || c == '\U{3000}'
  }

  /** `not line.strip()`: the line holds nothing but whitespace. */
  predicate IsBlank(s: string) {
    forall i :: 0 <= i < |s| ==> IsSpace(s[i])
  }

  predicate IsDigit(c: char) {
    '0' <= c <= '9'
  }
}
